=== FILE: README.md ===
# Pocket Casts client, modelled in Dafny

This project models the logic inside the two revisions of a Python client for the Pocket Casts web API.

- **Later revision** (`pycketcasts/pocketcasts.py`, module `Pycketcasts` in `Pycketcasts.dfy`):
  - the 23-entry endpoint table and `_make_url`;
  - the `Podcast`, `Category` and `Account` adapters, which are views over their JSON payloads;
  - the `Episode` object. Its `_podcast` slot is resolved lazily through `get_podcast_by_id`, once in the constructor and again on each read of `podcast` while the slot stays empty;
  - the request payloads of the eight episode actions and of subscribe/unsubscribe;
  - the list builders `_make_podcasts`, `_make_episodes` and `_make_categories`;
  - the region templating of `Category.get_podcasts`;
  - the case-insensitive first-match scan of `PocketCast.category`;
  - the login that stores the bearer token;
  - `content(list_id)` and `networks`.
- **Earlier revision** (`pocketcasts/pocketcasts.py`, module `Pocketcasts` in `Pocketcasts.dfy`):
  - the 14-entry endpoint table and the same `_make_url`;
  - constructors that copy their fields out of the payload when the object is built;
  - list builders that never give an episode a podcast;
  - the region templating;
  - `networks` and `content`, which always return `[]`.
- **Shared Python semantics** (module `Json` in `Json.dfy`). Decoded JSON is a `Value`. An object is an insertion-ordered list of entries. On top of that the module models:
  - truthiness;
  - `dict.get`, and `v[key]`;
  - what `for x in v` visits;
  - ASCII `str.lower`;
  - `str.replace`.

A Python exception is a `Raise(AttributeError | TypeError | KeyError)` result, so every raising path is modelled as a value. The network is a parameter:

- `server` gives the decoded response for a podcast id;
- `post` gives the truthiness of a POST response;
- `postJson` and `getJson` give decoded bodies.

The lazily resolved podcast is the one piece of state the later revision changes in place. It is modelled as the class `Pycketcasts.Episode`, which has:

- a mutable `podcast` field;
- a ghost `fetches` counter of the lookups the instance has sent.

The bearer token is `Pycketcasts.PocketCast.token`. The list builders and the category scan are loops proved against the functions that specify them.

## Model

| member | source | states |
|---|---|---|
| `Json.LookupFindsFirst` | pycketcasts/pocketcasts.py:453 | `d.get(key)` finds nothing exactly when no entry has the key; otherwise it finds the value of the first entry with that key |
| `Json.Listing` | pycketcasts/pocketcasts.py:819-820 | the guard `if data and data.get(key): for x in data[key]` gives `[]` for a falsy payload, a missing key or a None entry. It gives the list's elements in order for a list. It raises AttributeError on a truthy non-dict payload and TypeError when the entry is a nonzero int |
| `Json.Items` | pycketcasts/pocketcasts.py:853-854 | `if data: for x in data` gives `[]` for a falsy value, the elements of a list, the keys of a dict in insertion order, and the one-character strings of a string. An int or bool raises exactly when it is truthy |
| `Json.ReplaceAllSkipsPlainText` | pycketcasts/pocketcasts.py:569 | text that cannot start the pattern passes through `str.replace` unchanged, and the replacement continues after it |
| `Json.ReplaceAllFillsTemplate` | pycketcasts/pocketcasts.py:569 | when the text is parts joined by the placeholder and no part contains the placeholder's first character (`[`), replacing the placeholder gives the same parts joined by the replacement |
| `Json.ReplaceAllWithoutOccurrence` | pycketcasts/pocketcasts.py:569 | a source in which the placeholder occurs at no position is returned unchanged |
| `Json.ReplaceAll` | pycketcasts/pocketcasts.py:569 | `str.replace`: replacing the pattern by itself gives the source back, and a replacement of the pattern's length keeps the length |
| `Json.Lower` | pycketcasts/pocketcasts.py:1041 | `str.lower` on ASCII: same length, each capital replaced by its own lower-case letter, and every other character kept in place |
| `Json.LowerAlike` | pycketcasts/pocketcasts.py:1041 | two strings lower alike if and only if they have the same length and agree at every position up to the case of an ASCII letter, so a name matches every casing of itself and nothing else |
| `Pycketcasts.EndpointOfOperation` | pycketcasts/pocketcasts.py:6-34 | `_get_endpoint` gives each of the 23 operation names its path. The 14 listing routes (lines 7-20) are exactly those of the operations not added later |
| `Pycketcasts.OnlyOperationsAreRouted` | pycketcasts/pocketcasts.py:6-34 | a name has a path if and only if it is one of the 23 operation names, so every other name gives None |
| `Pycketcasts.MakeUrl` | pycketcasts/pocketcasts.py:37-40 | the URL is `base + "/"`, then the endpoint with one leading slash removed if it has one, then the suffix. Its length is stated exactly |
| `Pycketcasts.MakeUrlStripsOneSlash` | pycketcasts/pocketcasts.py:37-40 | only one slash is removed, so `"//x"` keeps `"/x"` |
| `Pycketcasts.EndpointUrl` | pycketcasts/pocketcasts.py:239-241 | building a URL from `_get_endpoint(name)` raises exactly when the name is unrouted (`None.startswith`). Otherwise it gives the URL of that operation's path |
| `Pycketcasts.StaticListUrls` | pycketcasts/pocketcasts.py:1053-1088 | trending, popular and featured are fetched from `https://lists.pocketcasts.com/<name>.json` |
| `Pycketcasts.AccountUrl` | pycketcasts/pocketcasts.py:867-868 | the account status URL is `https://api.pocketcasts.com/subscription/status`, without the leading slash it is written with |
| `Pycketcasts.Paid` | pycketcasts/pocketcasts.py:580-587 | `paid` is True if and only if the payload's `paid` is 1 (or True, which equals 1 in Python). It raises only on a non-dict payload |
| `Pycketcasts.Playing` | pycketcasts/pocketcasts.py:120-127 | `playing` is True if and only if `playing_status` is a positive int or True. Any other int or bool, 0 and False included, gives False. A status that is not an int or a bool (missing, None, a string, a list or a dict) raises TypeError, as `> 0` does. A non-dict payload raises AttributeError |
| `Pycketcasts.PodcastById` | pycketcasts/pocketcasts.py:989-1002 | gives a Podcast if and only if the response is a dict with a truthy `podcast` entry, and that Podcast wraps exactly `data['podcast']`. A falsy response, or any dict without a truthy `podcast`, gives None; only a truthy non-dict raises |
| `Pycketcasts.Resolve` | pycketcasts/pocketcasts.py:57-58 | resolving an episode's podcast raises AttributeError exactly when the payload is not a dict or the server's answer is a truthy non-dict. A podcast it finds always has a truthy payload |
| `Pycketcasts.Reading` | pycketcasts/pocketcasts.py:61-70 | a filled slot is returned as it is. An empty slot is resolved from the payload's `podcastUuid` |
| `Pycketcasts.Podcast.Id` | pycketcasts/pocketcasts.py:446-453 | `Podcast.id` is the payload's `uuid`, None when absent. A non-dict payload raises AttributeError |
| `Pycketcasts.PlayStatusUrl` | pycketcasts/pocketcasts.py:239-241 | both play-status actions post to `https://api.pocketcasts.com/sync/update_episode` |
| `Pycketcasts.MarkPlayedPayload` | pycketcasts/pocketcasts.py:242-249 | `mark_played` sends a form body with status 3 and no position |
| `Pycketcasts.MarkUnplayedPayload` | pycketcasts/pocketcasts.py:261-269 | `mark_unplayed` sends a form body with status 1 and position 0 |
| `Pycketcasts.StarPayloads` | pycketcasts/pocketcasts.py:271-304 | the star actions send a JSON body whose `star` is True or False |
| `Pycketcasts.ArchivePayloads` | pycketcasts/pocketcasts.py:306-343 | the archive actions send `archive` True or False |
| `Pycketcasts.ActionRequest` | pycketcasts/pocketcasts.py:242-387 | every action posts a dict body to `https://api.pocketcasts.com/` plus its operation's path. Only the two star actions send JSON; the others send a form |
| `Pycketcasts.ActionsCarryPodcast` | pycketcasts/pocketcasts.py:242-387 | every action's episode record carries the episode's `uuid` and the chosen podcast reference |
| `Pycketcasts.PodcastRef` | pycketcasts/pocketcasts.py:244 | a truthy `podcast_id` is used as is. Otherwise the resolved podcast's `id` is used. An unresolved (None) podcast raises AttributeError |
| `Pycketcasts.Episode.Init` | pycketcasts/pocketcasts.py:55-56 | a new episode holds its payload and the podcast it was given, with no lookups sent |
| `Pycketcasts.Episode.Create` | pycketcasts/pocketcasts.py:44-59 | construction succeeds if and only if resolving the podcast does, and raises the resolution's error otherwise. The slot holds what the resolution found. Exactly one lookup is sent when no podcast was given, and none when one was |
| `Pycketcasts.Episode.GetPodcast` | pycketcasts/pocketcasts.py:61-70 | a read returns what `Reading` gives for the old slot. The result is stored, even None. A lookup is counted only when the slot was empty |
| `Pycketcasts.Episode.Perform` | pycketcasts/pocketcasts.py:232-387 | an action returns the truthiness of the response to the request `ActionRequest` builds. The slot is read, and possibly fetched, only when `podcastUuid` is falsy. Every raise is propagated |
| `Pycketcasts.ReadPodcastTwice` | pycketcasts/pocketcasts.py:61-70 | once a read found a podcast, the next read returns it with no further lookup. A read that found None is fetched again. Two reads send at most two lookups |
| `Pycketcasts.MakePodcasts` | pycketcasts/pocketcasts.py:808-822 | one Podcast per listed element, same length and order, each wrapping its element. The result is `[]` on a falsy payload or a missing or empty entry |
| `Pycketcasts.MakeEpisodes` | pycketcasts/pocketcasts.py:824-841 | one fresh, distinct Episode per element, in order, each given the same podcast argument. It succeeds if and only if every element's resolution does, and otherwise raises the first failing element's error |
| `Pycketcasts.MakeCategories` | pycketcasts/pocketcasts.py:843-857 | one Category per element visited by `for cat in data`, in order. The result is `[]` for a falsy payload |
| `Pycketcasts.SubscriptionRequest` | pycketcasts/pocketcasts.py:489-517 | subscribe and unsubscribe post `{uuid: id}` to their own endpoints. They raise only on a non-dict payload |
| `Pycketcasts.Subscribe` | pycketcasts/pocketcasts.py:489-517 | the result is True if and only if the POST response is truthy |
| `Pycketcasts.PodcastEpisodeList` | pycketcasts/pocketcasts.py:473-487 | `Podcast.episodes` posts the podcast's uuid. Every episode it builds holds this podcast and sends no lookup |
| `Pycketcasts.CategoryUrl` | pycketcasts/pocketcasts.py:560-571 | the URL is `source` with every `[regionCode]` replaced by the region. A missing or non-string source raises AttributeError |
| `Pycketcasts.CategoryUrlFillsRegion` | pycketcasts/pocketcasts.py:569 | a source made of parts around `[regionCode]` holes, with no `[` in any part, gives those parts with the region in each hole |
| `Pycketcasts.GetCategoryPodcasts` | pycketcasts/pocketcasts.py:560-571 | the podcasts are those listed in the document at the templated URL, in order |
| `Pycketcasts.NameMatches` | pycketcasts/pocketcasts.py:1041 | the test `category.name.lower() == category_name.lower()` runs only on a string name and raises AttributeError otherwise. It is True exactly when the lower-cased names are equal |
| `Pycketcasts.FirstMatch` | pycketcasts/pocketcasts.py:1040-1043 | a category the scan returns is one of those scanned, and its name matches. A failed test raises AttributeError |
| `Pycketcasts.FirstMatchIsFirst` | pycketcasts/pocketcasts.py:1040-1043 | the scan gives None if and only if no name matches. Otherwise the first category whose test does not give False decides: it is returned if it matches, or its error is raised |
| `Pycketcasts.FirstMatchIgnoresRest` | pycketcasts/pocketcasts.py:1040-1043 | categories after the first match are never inspected |
| `Pycketcasts.FirstMatchIgnoresCase` | pycketcasts/pocketcasts.py:1041 | names that lower-case alike find the same category |
| `Pycketcasts.CategoryByName` | pycketcasts/pocketcasts.py:1040-1043 | the early-return loop gives exactly the first-match result |
| `Pycketcasts.FindCategory` | pycketcasts/pocketcasts.py:1020-1043 | `category(name)` is the first match among the categories built from the catalog |
| `Pycketcasts.LoginRequest` | pycketcasts/pocketcasts.py:680-693 | login posts a JSON body with the email, the password and scope `webplayer` to `https://api.pocketcasts.com/user/login` |
| `Pycketcasts.PocketCast.Init` | pycketcasts/pocketcasts.py:676 | a session starts without a token |
| `Pycketcasts.PocketCast.Connect` | pycketcasts/pocketcasts.py:663-695 | the token is `data['token']` when the login response is truthy, and stays None otherwise. A truthy response without a token raises |
| `Pycketcasts.ContentCoversStaticLists` | pycketcasts/pocketcasts.py:1100-1111 | `content(name)` fetches the same document as the trending, popular and featured properties |
| `Pycketcasts.ContentUrl` | pycketcasts/pocketcasts.py:1109 | the `content` URL is what `_make_url` builds from the lists base, the list id and `.json`, except that a leading slash of the id is kept |
| `Pycketcasts.Content` | pycketcasts/pocketcasts.py:1100-1111 | `content(list_id)` gives the podcasts listed at `https://lists.pocketcasts.com/<list_id>.json`, in order |
| `Pycketcasts.Networks` | pycketcasts/pocketcasts.py:1090-1098 | `networks` is always empty |
| `Pocketcasts.SameListingRoutes` | pocketcasts/pocketcasts.py:5-20 | the earlier table is the later table's 14 listing routes, entry for entry |
| `Pocketcasts.EndpointOfOperation` | pocketcasts/pocketcasts.py:5-24 | the earlier `_get_endpoint` routes each listing operation to the same path as the later one. It gives None for the 9 operations added later: episodes, subscribe, unsubscribe, archive, star, up next, play status, play next and play last |
| `Pocketcasts.RoutedAsLater` | pocketcasts/pocketcasts.py:5-24 | a name the earlier table routes is a listing operation's name and gets the later revision's path. Every other name gives None |
| `Pocketcasts.MakeUrl` | pocketcasts/pocketcasts.py:27-30 | the earlier `_make_url` builds the same URL as the later one for every argument |
| `Pocketcasts.MakeUrlStripsOneSlash` | pocketcasts/pocketcasts.py:27-30 | an endpoint written with a leading slash loses exactly that one slash |
| `Pocketcasts.PodcastOf` | pocketcasts/pocketcasts.py:56-66 | a podcast is built if and only if the payload is a dict. Each of its seven fields is `data.get` of its own key. A non-dict raises AttributeError |
| `Pocketcasts.EpisodeOf` | pocketcasts/pocketcasts.py:33-53 | an episode is built if and only if the payload is a dict. It keeps the podcast it was given. Each field is `data.get` of its own key, except `published_date`, which is `data.get('url')` |
| `Pocketcasts.CategoryOf` | pocketcasts/pocketcasts.py:69-75 | a category is built if and only if the payload is a dict, and then copies its `name`, `icon` and `source` |
| `Pocketcasts.ConstructorsReadOnlyTheirKeys` | pocketcasts/pocketcasts.py:33-75 | payloads that agree on a constructor's keys build equal objects, so no other key, `published` included, matters |
| `Pocketcasts.AbsentKeysGiveNones` | pocketcasts/pocketcasts.py:33-75 | for every payload, each key it lacks makes the field read from that key None |
| `Pocketcasts.PublishedDateIsTheUrl` | pocketcasts/pocketcasts.py:39-40 | for every payload, `published_date` is the `url` entry, and it differs from the `published` entry whenever the two entries differ |
| `Pocketcasts.MakePodcasts` | pocketcasts/pocketcasts.py:113-118 | one Podcast per listed element, same length and order. The result is `[]` on a falsy payload or a missing or empty entry. It raises AttributeError if and only if some element is not a dict |
| `Pocketcasts.MakeEpisodes` | pocketcasts/pocketcasts.py:120-125 | same fallback and order, and every episode built has podcast None |
| `Pocketcasts.MakeCategories` | pocketcasts/pocketcasts.py:127-132 | one Category per element of the top-level payload, in order. The result is `[]` for a falsy payload |
| `Pocketcasts.CategoryUrl` | pocketcasts/pocketcasts.py:77-78 | the URL is `str.replace` of the copied `source`, `[regionCode]` by the region; a source made of parts with no `[`, joined by placeholders, gets the region in every hole. Only a non-string source raises, with AttributeError |
| `Pocketcasts.GetCategoryPodcasts` | pocketcasts/pocketcasts.py:77-80 | the podcasts are those listed at the templated URL, in order. The call succeeds if and only if every listed element is a dict |
| `Pocketcasts.Networks` | pocketcasts/pocketcasts.py:214-216 | `networks` is always empty |
| `Pocketcasts.Content` | pocketcasts/pocketcasts.py:218-220 | `content` is always empty |

## Left out

- HTTP transport is replaced by the oracle parameters: `requests.Session`, `res.json()`, the truthiness of a real `Response`, query parameters and the `Authorization` header (pycketcasts/pocketcasts.py:697-794, pocketcasts/pocketcasts.py:100-111).
- The earlier `_login` (pocketcasts/pocketcasts.py:93-98) sends the same request and stores the token the same way. It is modelled once, by `Pycketcasts.LoginRequest` and `Pycketcasts.PocketCast.Connect`.
- `Episode.published_date` of the later revision goes through `datetime.strptime` inside a bare `except`. It enters the play-next and play-last payloads as an opaque parameter. Its format string `'YYYY-MM-DDTHH:mm:ssZ'` contains no `%` directive, so the source can parse only that literal text. The model does not rely on this.
- `Episode.show_notes` is left out because it prints a URL and fetches it, which is pure I/O.
- The one-line getters beyond those cited (`title`, `duration`, `size`, and so on) are left out. Each is `Json.Get` of one key.
- The listing properties are modelled only through the pieces they are built from: routing, URL building and the list builders. This covers `subscriptions`, `in_progress`, `up_next`, `starred`, `history`, `new_releases`, `recommendations`, `search`, `stats` and `account`, and the fixed categories catalog URL. Their extra request bodies (`{'v': 1}`, `{'version': 2, 'model': 'webplayer'}`, `{'term': keyword}`) are not modelled.
- `str.lower` is ASCII-only here. Python's Unicode case mapping is not modelled.
- Floating-point JSON numbers are not modelled. The payloads this client reads use ints, strings, booleans, lists and dicts.
- `Json.ReplaceAll` requires a non-empty pattern. `str.replace` with an empty pattern never occurs here, because the placeholder is the constant `[regionCode]`.
- `Pycketcasts.Episode.Perform`: the truthiness of the POST response is an oracle on the request alone. Two identical requests are assumed to get the same answer.
- The `region='us'` default of `Category.get_podcasts` (pycketcasts/pocketcasts.py:560, pocketcasts/pocketcasts.py:77) is not modelled. `CategoryUrl` and `GetCategoryPodcasts` always take the region as an argument.

=== FILE: Json.dfy ===
/** Decoded JSON values and the few pieces of Python semantics the client applies to them:
    truthiness, `dict.get`, `v[key]`, iteration with `for`, `str.lower` and `str.replace`.
    Operations that raise in Python return `Raise(...)` here. */
module Json {

  datatype Option<+T> = None | Some(value: T)

  /** The Python exceptions the client can raise on unexpected payloads. */
  datatype PyError = AttributeError | TypeError | KeyError

  datatype Result<+T> = Ok(value: T) | Raise(error: PyError)

  /** A value as `json.loads` returns it (floats are not modelled). An object is a dict: its
      entries in insertion order. The type does not forbid a repeated key; a dict from
      `json.loads` never has one (it keeps the last duplicate), and `Lookup` reads the first, so
      the model agrees with Python only on objects whose keys are distinct. */
  datatype Value =
    | Null
    | Bool(b: bool)
    | Int(n: int)
    | Str(text: string)
    | Array(items: seq<Value>)
    | Object(entries: seq<Entry>)

  datatype Entry = Entry(key: string, value: Value)

  /** Python's `bool(v)`: None, False, 0 and empty containers are falsy. */
  predicate Truthy(v: Value) {
    match v
    case Null => false
    case Bool(b) => b
    case Int(n) => n != 0
    case Str(s) => s != []
    case Array(xs) => xs != []
    case Object(es) => es != []
  }

  /** The value stored under `key` (the first entry with that key). */
  function Lookup(entries: seq<Entry>, key: string): Option<Value> {
    if entries == [] then None
    else if entries[0].key == key then Some(entries[0].value)
    else Lookup(entries[1..], key)
  }

  /** Lookup finds the first entry with the key, and nothing when no entry has it. */
  lemma {:induction false} LookupFindsFirst(entries: seq<Entry>, key: string)
    ensures Lookup(entries, key).None? <==> forall i :: 0 <= i < |entries| ==> entries[i].key != key
    ensures Lookup(entries, key).Some? ==>
              exists i :: 0 <= i < |entries| && entries[i] == Entry(key, Lookup(entries, key).value)
                          && forall j :: 0 <= j < i ==> entries[j].key != key
  {
    if entries != [] && entries[0].key != key {
      LookupFindsFirst(entries[1..], key);
      var r := Lookup(entries[1..], key);
      if r.Some? {
        var i :| 0 <= i < |entries| - 1 && entries[1..][i] == Entry(key, r.value)
                 && forall j :: 0 <= j < i ==> entries[1..][j].key != key;
        assert entries[i + 1] == Entry(key, r.value);
        assert forall j :: 0 <= j < i + 1 ==> entries[j].key != key by {
          forall j | 0 <= j < i + 1 ensures entries[j].key != key {
            if j > 0 { assert entries[j] == entries[1..][j - 1]; }
          }
        }
      } else {
        forall j | 0 <= j < |entries| ensures entries[j].key != key {
          if j > 0 { assert entries[j] == entries[1..][j - 1]; }
        }
      }
    }
  }

  /** `d.get(key)` on a dict: None when the key is absent. */
  function Field(entries: seq<Entry>, key: string): Value {
    match Lookup(entries, key)
    case None => Null
    case Some(x) => x
  }

  /** `v.get(key)`: only a dict has `get`. */
  function Get(v: Value, key: string): Result<Value> {
    if v.Object? then Ok(Field(v.entries, key)) else Raise(AttributeError)
  }

  /** `v[key]`: KeyError when a dict lacks the key; no other value is subscriptable by a string. */
  function Subscript(v: Value, key: string): Result<Value> {
    if !v.Object? then Raise(TypeError)
    else match Lookup(v.entries, key)
      case None => Raise(KeyError)
      case Some(x) => Ok(x)
  }

  /** What `for x in v` visits: list elements, one-character strings, or dict keys. */
  function Iterate(v: Value): Result<seq<Value>> {
    match v
    case Array(xs) => Ok(xs)
    case Str(s) => Ok(seq(|s|, i requires 0 <= i < |s| => Str([s[i]])))
    case Object(es) => Ok(seq(|es|, i requires 0 <= i < |es| => Str(es[i].key)))
    case _ => Raise(TypeError)
  }

  /** The guard shared by the list builders of both revisions:
        `if payload and payload.get(key): for x in payload[key]: ...`
      giving the elements visited, in order. */
  function Listing(payload: Value, key: string): (r: Result<seq<Value>>)
    ensures !Truthy(payload) ==> r == Ok([])
    ensures Truthy(payload) && !payload.Object? ==> r == Raise(AttributeError)
    ensures payload.Object? && Lookup(payload.entries, key).None? ==> r == Ok([])
    ensures payload.Object? && Lookup(payload.entries, key) == Some(Null) ==> r == Ok([])
    ensures forall xs :: payload.Object? && Lookup(payload.entries, key) == Some(Array(xs)) ==> r == Ok(xs)
    ensures forall n :: payload.Object? && Lookup(payload.entries, key) == Some(Int(n)) && n != 0 ==>
                        r == Raise(TypeError)
  {
    if !Truthy(payload) then Ok([])
    else match Get(payload, key)
      case Raise(e) => Raise(e)
      case Ok(c) => if Truthy(c) then Iterate(c) else Ok([])
  }

  /** What `if v: for x in v` visits. */
  function Items(v: Value): (r: Result<seq<Value>>)
    ensures !Truthy(v) ==> r == Ok([])
    ensures v.Array? ==> r == Ok(v.items)
    ensures v.Int? || v.Bool? ==> (r.Raise? <==> Truthy(v))
    ensures v.Object? && Truthy(v) ==>
              r == Ok(seq(|v.entries|, i requires 0 <= i < |v.entries| => Str(v.entries[i].key)))
    ensures v.Str? && Truthy(v) ==> r.Ok? && |r.value| == |v.text| &&
                                    forall i :: 0 <= i < |v.text| ==> r.value[i] == Str([v.text[i]])
    ensures r.Ok? ==> |r.value| == (match v
                                     case Str(s) => |s|
                                     case Object(es) => |es|
                                     case Array(xs) => |xs|
                                     case _ => 0)
  {
    if Truthy(v) then Iterate(v) else Ok([])
  }

  function LowerChar(c: char): char {
    if 'A' <= c <= 'Z' then (c as int + 32) as char else c
  }

  /** `s.lower()`, restricted to ASCII letters: each capital becomes its lower-case letter, and
      every other character is kept in its place. */
  function Lower(s: string): (r: string)
    ensures |r| == |s|
    ensures forall i :: 0 <= i < |r| ==> !('A' <= r[i] <= 'Z')
    ensures forall i :: 0 <= i < |s| && 'A' <= s[i] <= 'Z' ==> r[i] as int == s[i] as int + 32
    ensures forall i :: 0 <= i < |s| && !('A' <= s[i] <= 'Z') ==> r[i] == s[i]
  {
    seq(|s|, i requires 0 <= i < |s| => LowerChar(s[i]))
  }

  /** Two characters that are equal, or the same ASCII letter in the two cases. */
  predicate SameUpToCase(a: char, b: char) {
    a == b || ('A' <= a <= 'Z' && b as int == a as int + 32) || ('A' <= b <= 'Z' && a as int == b as int + 32)
  }

  /** Two strings lower alike exactly when they are the same string up to the case of ASCII
      letters. */
  lemma LowerAlike(s: string, t: string)
    ensures Lower(s) == Lower(t) <==> |s| == |t| && forall i :: 0 <= i < |s| ==> SameUpToCase(s[i], t[i])
  {
    if Lower(s) == Lower(t) {
      forall i | 0 <= i < |s| ensures SameUpToCase(s[i], t[i]) {
        assert Lower(s)[i] == Lower(t)[i];
      }
    }
    if |s| == |t| && forall i :: 0 <= i < |s| ==> SameUpToCase(s[i], t[i]) {
      forall i | 0 <= i < |s| ensures Lower(s)[i] == Lower(t)[i] {
        assert SameUpToCase(s[i], t[i]);
      }
    }
  }

  /** `s.replace(pat, rep)`: every non-overlapping occurrence of `pat`, scanning left to right. */
  function ReplaceAll(s: string, pat: string, rep: string): (r: string)
    requires pat != []
    ensures rep == pat ==> r == s
    ensures |rep| == |pat| ==> |r| == |s|
    decreases |s|
  {
    if s == [] then []
    else if pat <= s then rep + ReplaceAll(s[|pat|..], pat, rep)
    else [s[0]] + ReplaceAll(s[1..], pat, rep)
  }

  /** Parts glued together with `sep` between consecutive parts. */
  function Join(parts: seq<string>, sep: string): string {
    if |parts| == 0 then []
    else if |parts| == 1 then parts[0]
    else parts[0] + sep + Join(parts[1..], sep)
  }

  /** A stretch that cannot start an occurrence of `pat` passes through the replacement unchanged. */
  lemma {:induction false} ReplaceAllSkipsPlainText(s: string, t: string, pat: string, rep: string)
    requires pat != [] && pat[0] !in s
    ensures ReplaceAll(s + t, pat, rep) == s + ReplaceAll(t, pat, rep)
  {
    if s != [] {
      assert (s + t)[0] == s[0];
      assert !(pat <= s + t);
      assert (s + t)[1..] == s[1..] + t;
      assert ReplaceAll(s + t, pat, rep) == [s[0]] + ReplaceAll(s[1..] + t, pat, rep);
      ReplaceAllSkipsPlainText(s[1..], t, pat, rep);
      assert [s[0]] + (s[1..] + ReplaceAll(t, pat, rep)) == s + ReplaceAll(t, pat, rep);
    } else {
      assert s + t == t;
    }
  }

  /** Filling a template: when the text around the placeholders cannot start a placeholder,
      replacing the placeholder gives the same text with `rep` in each hole. */
  lemma {:induction false} ReplaceAllFillsTemplate(parts: seq<string>, pat: string, rep: string)
    requires pat != []
    requires forall i :: 0 <= i < |parts| ==> pat[0] !in parts[i]
    ensures ReplaceAll(Join(parts, pat), pat, rep) == Join(parts, rep)
  {
    if |parts| == 1 {
      ReplaceAllSkipsPlainText(parts[0], [], pat, rep);
      assert parts[0] + [] == parts[0];
    } else if |parts| > 1 {
      var rest := Join(parts[1..], pat);
      assert Join(parts, pat) == parts[0] + (pat + rest);
      ReplaceAllSkipsPlainText(parts[0], pat + rest, pat, rep);
      assert (pat + rest)[|pat|..] == rest;
      assert ReplaceAll(pat + rest, pat, rep) == rep + ReplaceAll(rest, pat, rep);
      ReplaceAllFillsTemplate(parts[1..], pat, rep);
    }
  }

  /** A string with no occurrence of `pat` at any position comes back unchanged. */
  lemma {:induction false} ReplaceAllWithoutOccurrence(s: string, pat: string, rep: string)
    requires pat != []
    requires forall i :: 0 <= i <= |s| ==> !(pat <= s[i..])
    ensures ReplaceAll(s, pat, rep) == s
  {
    if s != [] {
      assert s[0..] == s;
      forall i | 0 <= i <= |s[1..]| ensures !(pat <= s[1..][i..]) {
        assert s[1..][i..] == s[i + 1..];
      }
      ReplaceAllWithoutOccurrence(s[1..], pat, rep);
    }
  }
}

=== FILE: Pocketcasts.dfy ===
/** The earlier client, pocketcasts/pocketcasts.py: a smaller endpoint table, the same URL
    building, adapters that copy their fields out of the payload when they are built, and list
    builders that never attach a podcast to an episode. */
module Pocketcasts {
  import opened Json
  import Pycketcasts


  // ---------------------------------------------------------------- routing

  /** The module-level name -> path table of this revision. */
  const Endpoints: map<string, string> := map[
    "list" := "user/podcast/list",
    "new_releases" := "user/new_releases",
    "in_progress" := "user/in_progress",
    "starred" := "user/starred",
    "history" := "user/history",
    "stats" := "user/stats/summary",
    "search" := "discover/search",
    "recommendations" := "discover/recommend_episodes",
    "categories" := "categories_v2",
    "content" := "content",
    "featured" := "featured",
    "networks" := "network_list_v2",
    "popular" := "popular",
    "trending" := "trending"
  ]

  /** This table is the listing part of the later one, entry for entry. */
  lemma SameListingRoutes()
    ensures Endpoints == Pycketcasts.ListingRoutes
  {
  }

  /** `_get_endpoint(name)`: `endpoints.get(name)`. */
  function GetEndpoint(name: string): Option<string> {
    if name in Endpoints then Some(Endpoints[name]) else None
  }

  /** The 14 listing operations are routed as in the later revision; the 9 it added (episodes,
      subscriptions, episode actions, Up Next) are not routed here. */
  lemma EndpointOfOperation(op: Pycketcasts.Operation)
    ensures GetEndpoint(Pycketcasts.Name(op)) ==
            if Pycketcasts.AddedLater(op) then None else Some(Pycketcasts.Path(op))
  {
    Pycketcasts.EndpointOfOperation(op);
  }

  /** A name routed here is one of the listing operations, routed as the later revision routes
      it; so every name outside the 14 gives None. */
  lemma {:induction false} RoutedAsLater(name: string)
    ensures GetEndpoint(name).Some? ==>
              GetEndpoint(name) == Pycketcasts.GetEndpoint(name) &&
              exists op :: Pycketcasts.Name(op) == name && !Pycketcasts.AddedLater(op)
  {
    if name in Endpoints {
      Pycketcasts.ListingRouteHasOperation(name);
      var op :| Pycketcasts.Name(op) == name;
      Pycketcasts.EndpointOfOperation(op);
    }
  }

  /** `_make_url(base, endpoint, suffix)`, unchanged in the later revision. */
  function MakeUrl(base: string, endpoint: string, suffix: string): (url: string)
    ensures url == Pycketcasts.MakeUrl(base, endpoint, suffix)
  {
    if |endpoint| > 0 && endpoint[0] == '/' then base + "/" + endpoint[1..] + suffix
    else base + "/" + endpoint + suffix
  }

  /** As in the later revision, exactly one leading slash is stripped. */
  lemma MakeUrlStripsOneSlash(base: string, endpoint: string, suffix: string)
    ensures forall path :: endpoint == "/" + path ==> MakeUrl(base, endpoint, suffix) == base + "/" + path + suffix
  {
    forall path | endpoint == "/" + path
      ensures MakeUrl(base, endpoint, suffix) == base + "/" + path + suffix
    {
      Pycketcasts.MakeUrlStripsOneSlash(base, path, suffix);
    }
  }

  // ---------------------------------------------------------------- adapters

  /** A podcast with the fields its constructor copies. */
  datatype Podcast = Podcast(title: Value, author: Value, description: Value, feed: Value,
                             uuid: Value, itunes: Value, website: Value)

  /** An episode with the fields its constructor copies; `podcast` is whatever the caller passed. */
  datatype Episode = Episode(podcast: Option<Podcast>, uuid: Value, url: Value, publishedDate: Value,
                             duration: Value, fileType: Value, title: Value, size: Value,
                             playingStatus: Value, currentPosition: Value, starred: Value,
                             podcastUuid: Value, podcastTitle: Value, episodeType: Value,
                             season: Value, number: Value, deleted: Value)

  /** A category with the fields its constructor copies. */
  datatype Category = Category(name: Value, icon: Value, source: Value)

  /** Two payloads that agree on every key in `keys`. */
  predicate AgreeOn(d1: seq<Entry>, d2: seq<Entry>, keys: set<string>) {
    forall k :: k in keys ==> Field(d1, k) == Field(d2, k)
  }

  const PodcastKeys := {"title", "author", "description", "feed", "uuid", "itunes", "website"}
  const EpisodeKeys := {"uuid", "url", "duration", "fileType", "title", "size", "playing_status", "playedUpTo",
                        "starred", "podcastUuid", "podcastTitle", "episodeType", "episodeSeason",
                        "episodeNumber", "isDeleted"}
  const CategoryKeys := {"name", "icon", "source"}

  /** `Podcast(data, api)`: each field is `data.get(key)`; a non-dict payload raises. */
  function PodcastOf(data: Value): (r: Result<Podcast>)
    ensures r.Ok? <==> data.Object?
    ensures r.Raise? ==> r.error == AttributeError
    ensures r.Ok? ==> var d := data.entries;
              r.value.title == Field(d, "title") && r.value.author == Field(d, "author") &&
              r.value.description == Field(d, "description") && r.value.feed == Field(d, "feed") &&
              r.value.uuid == Field(d, "uuid") && r.value.itunes == Field(d, "itunes") &&
              r.value.website == Field(d, "website")
  {
    if !data.Object? then Raise(AttributeError)
    else
      var d := data.entries;
      Ok(Podcast(Field(d, "title"), Field(d, "author"), Field(d, "description"), Field(d, "feed"),
                 Field(d, "uuid"), Field(d, "itunes"), Field(d, "website")))
  }

  /** `Episode(data, podcast, api)`: each field is `data.get(key)`, except that the published
      date is read from `url`; a non-dict payload raises. */
  function EpisodeOf(data: Value, podcast: Option<Podcast>): (r: Result<Episode>)
    ensures r.Ok? <==> data.Object?
    ensures r.Raise? ==> r.error == AttributeError
    ensures r.Ok? ==> var d := data.entries;
              r.value.podcast == podcast && r.value.uuid == Field(d, "uuid") &&
              r.value.url == Field(d, "url") && r.value.publishedDate == Field(d, "url") &&
              r.value.duration == Field(d, "duration") && r.value.fileType == Field(d, "fileType") &&
              r.value.title == Field(d, "title") && r.value.size == Field(d, "size") &&
              r.value.playingStatus == Field(d, "playing_status") &&
              r.value.currentPosition == Field(d, "playedUpTo") && r.value.starred == Field(d, "starred") &&
              r.value.podcastUuid == Field(d, "podcastUuid") && r.value.podcastTitle == Field(d, "podcastTitle") &&
              r.value.episodeType == Field(d, "episodeType") && r.value.season == Field(d, "episodeSeason") &&
              r.value.number == Field(d, "episodeNumber") && r.value.deleted == Field(d, "isDeleted")
  {
    if !data.Object? then Raise(AttributeError)
    else
      var d := data.entries;
      Ok(Episode(podcast, Field(d, "uuid"), Field(d, "url"), Field(d, "url"), Field(d, "duration"),
                 Field(d, "fileType"), Field(d, "title"), Field(d, "size"), Field(d, "playing_status"),
                 Field(d, "playedUpTo"), Field(d, "starred"), Field(d, "podcastUuid"),
                 Field(d, "podcastTitle"), Field(d, "episodeType"), Field(d, "episodeSeason"),
                 Field(d, "episodeNumber"), Field(d, "isDeleted")))
  }

  /** `Category(data, api)`: each field is `data.get(key)`; a non-dict payload raises. */
  function CategoryOf(data: Value): (r: Result<Category>)
    ensures r.Ok? <==> data.Object?
    ensures r.Raise? ==> r.error == AttributeError
    ensures r.Ok? ==> r.value.name == Field(data.entries, "name") && r.value.icon == Field(data.entries, "icon") &&
                      r.value.source == Field(data.entries, "source")
  {
    if !data.Object? then Raise(AttributeError)
    else
      var d := data.entries;
      Ok(Category(Field(d, "name"), Field(d, "icon"), Field(d, "source")))
  }

  /** The constructors read their own keys and nothing else. */
  lemma ConstructorsReadOnlyTheirKeys(d1: seq<Entry>, d2: seq<Entry>, podcast: Option<Podcast>)
    ensures AgreeOn(d1, d2, PodcastKeys) ==> PodcastOf(Object(d1)) == PodcastOf(Object(d2))
    ensures AgreeOn(d1, d2, EpisodeKeys) ==> EpisodeOf(Object(d1), podcast) == EpisodeOf(Object(d2), podcast)
    ensures AgreeOn(d1, d2, CategoryKeys) ==> CategoryOf(Object(d1)) == CategoryOf(Object(d2))
  {
  }

  /** A key the payload lacks becomes None, whatever else the payload holds. */
  lemma AbsentKeysGiveNones(d: seq<Entry>, podcast: Option<Podcast>)
    ensures var p := PodcastOf(Object(d)).value;
            (Lookup(d, "title").None? ==> p.title == Null) &&
            (Lookup(d, "author").None? ==> p.author == Null) &&
            (Lookup(d, "description").None? ==> p.description == Null) &&
            (Lookup(d, "feed").None? ==> p.feed == Null) &&
            (Lookup(d, "uuid").None? ==> p.uuid == Null) &&
            (Lookup(d, "itunes").None? ==> p.itunes == Null) &&
            (Lookup(d, "website").None? ==> p.website == Null)
    ensures var e := EpisodeOf(Object(d), podcast).value;
            (Lookup(d, "uuid").None? ==> e.uuid == Null) &&
            (Lookup(d, "url").None? ==> e.url == Null && e.publishedDate == Null) &&
            (Lookup(d, "duration").None? ==> e.duration == Null) &&
            (Lookup(d, "fileType").None? ==> e.fileType == Null) &&
            (Lookup(d, "title").None? ==> e.title == Null) &&
            (Lookup(d, "size").None? ==> e.size == Null) &&
            (Lookup(d, "playing_status").None? ==> e.playingStatus == Null) &&
            (Lookup(d, "playedUpTo").None? ==> e.currentPosition == Null) &&
            (Lookup(d, "starred").None? ==> e.starred == Null) &&
            (Lookup(d, "podcastUuid").None? ==> e.podcastUuid == Null) &&
            (Lookup(d, "podcastTitle").None? ==> e.podcastTitle == Null) &&
            (Lookup(d, "episodeType").None? ==> e.episodeType == Null) &&
            (Lookup(d, "episodeSeason").None? ==> e.season == Null) &&
            (Lookup(d, "episodeNumber").None? ==> e.number == Null) &&
            (Lookup(d, "isDeleted").None? ==> e.deleted == Null)
    ensures var c := CategoryOf(Object(d)).value;
            (Lookup(d, "name").None? ==> c.name == Null) &&
            (Lookup(d, "icon").None? ==> c.icon == Null) &&
            (Lookup(d, "source").None? ==> c.source == Null)
  {
  }

  /** The published date is the episode's url, never its `published` entry: for every payload it
      is `data.get('url')`, and a payload whose `published` differs from its url shows it. */
  lemma PublishedDateIsTheUrl(d: seq<Entry>)
    ensures EpisodeOf(Object(d), None).value.publishedDate == Field(d, "url")
    ensures Field(d, "url") != Field(d, "published") ==>
              EpisodeOf(Object(d), None).value.publishedDate != Field(d, "published")
  {
  }

  // ---------------------------------------------------------------- list builders

  /** `_make_podcasts`: one Podcast per element of `payload['podcasts']`, in order; `[]` when the
      payload or that entry is falsy or absent; an element that is not a dict raises. */
  method MakePodcasts(payload: Value) returns (r: Result<seq<Podcast>>)
    ensures Listing(payload, "podcasts").Raise? ==> r == Raise(Listing(payload, "podcasts").error)
    ensures Listing(payload, "podcasts").Ok? ==>
              var items := Listing(payload, "podcasts").value;
              (r.Ok? <==> forall i :: 0 <= i < |items| ==> items[i].Object?) &&
              (r.Raise? ==> r.error == AttributeError) &&
              (r.Ok? ==> |r.value| == |items| && forall i :: 0 <= i < |items| ==> PodcastOf(items[i]) == Ok(r.value[i]))
  {
    var listing := Listing(payload, "podcasts");
    if listing.Raise? {
      return Raise(listing.error);
    }
    var items := listing.value;
    var podcasts: seq<Podcast> := [];
    var i := 0;
    while i < |items|
      invariant 0 <= i <= |items|
      invariant |podcasts| == i
      invariant forall k :: 0 <= k < i ==> PodcastOf(items[k]) == Ok(podcasts[k])
    {
      var p := PodcastOf(items[i]);
      if p.Raise? {
        return Raise(p.error);
      }
      podcasts := podcasts + [p.value];
      i := i + 1;
    }
    return Ok(podcasts);
  }

  /** `_make_episodes`: one Episode per element of `payload['episodes']`, in order, none of them
      with a podcast. */
  method MakeEpisodes(payload: Value) returns (r: Result<seq<Episode>>)
    ensures Listing(payload, "episodes").Raise? ==> r == Raise(Listing(payload, "episodes").error)
    ensures Listing(payload, "episodes").Ok? ==>
              var items := Listing(payload, "episodes").value;
              (r.Ok? <==> forall i :: 0 <= i < |items| ==> items[i].Object?) &&
              (r.Raise? ==> r.error == AttributeError) &&
              (r.Ok? ==> |r.value| == |items| && forall i :: 0 <= i < |items| ==> EpisodeOf(items[i], None) == Ok(r.value[i]))
    ensures r.Ok? ==> forall i :: 0 <= i < |r.value| ==> r.value[i].podcast == None
  {
    var listing := Listing(payload, "episodes");
    if listing.Raise? {
      return Raise(listing.error);
    }
    var items := listing.value;
    var episodes: seq<Episode> := [];
    var i := 0;
    while i < |items|
      invariant 0 <= i <= |items|
      invariant |episodes| == i
      invariant forall k :: 0 <= k < i ==> EpisodeOf(items[k], None) == Ok(episodes[k])
    {
      var e := EpisodeOf(items[i], None);
      if e.Raise? {
        return Raise(e.error);
      }
      episodes := episodes + [e.value];
      i := i + 1;
    }
    return Ok(episodes);
  }

  /** `_make_categories`: one Category per element of the top-level payload, in order; `[]` for
      a falsy payload. */
  method MakeCategories(payload: Value) returns (r: Result<seq<Category>>)
    ensures Items(payload).Raise? ==> r == Raise(Items(payload).error)
    ensures Items(payload).Ok? ==>
              var items := Items(payload).value;
              (r.Ok? <==> forall i :: 0 <= i < |items| ==> items[i].Object?) &&
              (r.Raise? ==> r.error == AttributeError) &&
              (r.Ok? ==> |r.value| == |items| && forall i :: 0 <= i < |items| ==> CategoryOf(items[i]) == Ok(r.value[i]))
  {
    var listing := Items(payload);
    if listing.Raise? {
      return Raise(listing.error);
    }
    var items := listing.value;
    var categories: seq<Category> := [];
    var i := 0;
    while i < |items|
      invariant 0 <= i <= |items|
      invariant |categories| == i
      invariant forall k :: 0 <= k < i ==> CategoryOf(items[k]) == Ok(categories[k])
    {
      var c := CategoryOf(items[i]);
      if c.Raise? {
        return Raise(c.error);
      }
      categories := categories + [c.value];
      i := i + 1;
    }
    return Ok(categories);
  }

  // ---------------------------------------------------------------- categories and lists

  /** `Category.get_podcasts`: the copied `source` with every `[regionCode]` replaced by the
      region; a source that is not a string raises AttributeError. */
  function CategoryUrl(c: Category, region: string): (r: Result<string>)
    ensures r.Ok? <==> c.source.Str?
    ensures r.Raise? ==> r.error == AttributeError
    ensures r.Ok? ==> r.value == ReplaceAll(c.source.text, Pycketcasts.RegionPlaceholder, region)
    ensures forall parts :: (c.source == Str(Join(parts, Pycketcasts.RegionPlaceholder)) &&
                             forall i :: 0 <= i < |parts| ==> '[' !in parts[i]) ==> r == Ok(Join(parts, region))
  {
    forall parts | c.source == Str(Join(parts, Pycketcasts.RegionPlaceholder)) &&
                   (forall i :: 0 <= i < |parts| ==> '[' !in parts[i])
      ensures ReplaceAll(c.source.text, Pycketcasts.RegionPlaceholder, region) == Join(parts, region)
    {
      ReplaceAllFillsTemplate(parts, Pycketcasts.RegionPlaceholder, region);
    }
    if c.source.Str? then Ok(ReplaceAll(c.source.text, Pycketcasts.RegionPlaceholder, region))
    else Raise(AttributeError)
  }

  method GetCategoryPodcasts(c: Category, region: string, getJson: string -> Value) returns (r: Result<seq<Podcast>>)
    ensures CategoryUrl(c, region).Raise? ==> r == Raise(AttributeError)
    ensures CategoryUrl(c, region).Ok? ==>
              var listing := Listing(getJson(CategoryUrl(c, region).value), "podcasts");
              (listing.Raise? ==> r == Raise(listing.error)) &&
              (r.Ok? <==> listing.Ok? && forall i :: 0 <= i < |listing.value| ==> listing.value[i].Object?) &&
              (r.Ok? ==> |r.value| == |listing.value| &&
                         forall i :: 0 <= i < |r.value| ==> PodcastOf(listing.value[i]) == Ok(r.value[i]))
  {
    var url := CategoryUrl(c, region);
    if url.Raise? {
      return Raise(url.error);
    }
    r := MakePodcasts(getJson(url.value));
  }

  /** `PocketCast.networks`: always empty in this revision. */
  function Networks(): (r: seq<Podcast>)
    ensures |r| == 0
  {
    []
  }

  /** `PocketCast.content`: always empty in this revision. */
  function Content(): (r: seq<Podcast>)
    ensures |r| == 0
  {
    []
  }
}

=== FILE: Pycketcasts.dfy ===
/** The client of pycketcasts/pocketcasts.py: endpoint routing, URL building, the adapters over
    decoded JSON, the Episode's lazily resolved podcast, the episode and podcast actions, the
    list builders and the category lookup.

    The network is a parameter: `server` maps a podcast id to the decoded body of
    `GET https://podcast-api.pocketcasts.com/podcast/full/{id}` (or `{}` for a falsy response),
    `post` tells whether the response to a POST request was truthy, and `postJson`/`getJson`
    give the decoded body of a response. */
module Pycketcasts {
  import opened Json

  const ApiBase := "https://api.pocketcasts.com"
  const ListsBase := "https://lists.pocketcasts.com"
  const RegionPlaceholder := "[regionCode]"

  // ---------------------------------------------------------------- routing

  /** The module-level name -> path table: the listing routes the client started with, then the
      routes added for episodes, subscriptions, episode actions and the Up Next queue. */
  const Endpoints: map<string, string> := ListingRoutes + LaterRoutes

  const ListingRoutes: map<string, string> := map[
    "list" := "user/podcast/list",
    "new_releases" := "user/new_releases",
    "in_progress" := "user/in_progress",
    "starred" := "user/starred",
    "history" := "user/history",
    "stats" := "user/stats/summary",
    "search" := "discover/search",
    "recommendations" := "discover/recommend_episodes",
    "categories" := "categories_v2",
    "content" := "content",
    "featured" := "featured",
    "networks" := "network_list_v2",
    "popular" := "popular",
    "trending" := "trending"
  ]

  const LaterRoutes: map<string, string> := map[
    "episodes" := "user/podcast/episodes",
    "subscribe" := "user/podcast/subscribe",
    "unsubscribe" := "user/podcast/unsubscribe",
    "episode_archive" := "sync/update_episode_archive",
    "episode_star" := "sync/update_episode_star",
    "up_next" := "up_next/list",
    "play_status" := "sync/update_episode",
    "play_next" := "up_next/play_next",
    "play_last" := "up_next/play_last"
  ]

  /** The operations the table routes, as an enumeration. */
  datatype Operation =
    | PodcastList | NewReleases | InProgress | StarredEpisodes | History | Stats | Search
    | Recommendations | CategoryList | ContentList | FeaturedList | NetworkList | PopularList
    | TrendingList | PodcastEpisodes | SubscribePodcast | UnsubscribePodcast | EpisodeArchive
    | EpisodeStar | UpNextList | PlayStatus | UpNextPlayNext | UpNextPlayLast

  function Name(op: Operation): string {
    match op
    case PodcastList => "list"
    case NewReleases => "new_releases"
    case InProgress => "in_progress"
    case StarredEpisodes => "starred"
    case History => "history"
    case Stats => "stats"
    case Search => "search"
    case Recommendations => "recommendations"
    case CategoryList => "categories"
    case ContentList => "content"
    case FeaturedList => "featured"
    case NetworkList => "networks"
    case PopularList => "popular"
    case TrendingList => "trending"
    case PodcastEpisodes => "episodes"
    case SubscribePodcast => "subscribe"
    case UnsubscribePodcast => "unsubscribe"
    case EpisodeArchive => "episode_archive"
    case EpisodeStar => "episode_star"
    case UpNextList => "up_next"
    case PlayStatus => "play_status"
    case UpNextPlayNext => "play_next"
    case UpNextPlayLast => "play_last"
  }

  /** The path each operation is served under. */
  function Path(op: Operation): string {
    match op
    case PodcastList => "user/podcast/list"
    case NewReleases => "user/new_releases"
    case InProgress => "user/in_progress"
    case StarredEpisodes => "user/starred"
    case History => "user/history"
    case Stats => "user/stats/summary"
    case Search => "discover/search"
    case Recommendations => "discover/recommend_episodes"
    case CategoryList => "categories_v2"
    case ContentList => "content"
    case FeaturedList => "featured"
    case NetworkList => "network_list_v2"
    case PopularList => "popular"
    case TrendingList => "trending"
    case PodcastEpisodes => "user/podcast/episodes"
    case SubscribePodcast => "user/podcast/subscribe"
    case UnsubscribePodcast => "user/podcast/unsubscribe"
    case EpisodeArchive => "sync/update_episode_archive"
    case EpisodeStar => "sync/update_episode_star"
    case UpNextList => "up_next/list"
    case PlayStatus => "sync/update_episode"
    case UpNextPlayNext => "up_next/play_next"
    case UpNextPlayLast => "up_next/play_last"
  }

  /** `_get_endpoint(name)`: `endpoints.get(name)`. What it gives is stated operation by operation
      in the lemmas below; a contract here would be carried into every proof that routes a name. */
  function GetEndpoint(name: string): Option<string> {
    if name in Endpoints then Some(Endpoints[name]) else None
  }

  /** The routes the episode actions post to. */
  predicate ActionRoute(op: Operation) {
    op in {EpisodeArchive, EpisodeStar, PlayStatus, UpNextPlayNext, UpNextPlayLast}
  }

  /** The operations whose routes were added after the listing routes. */
  predicate AddedLater(op: Operation) {
    op in {PodcastEpisodes, SubscribePodcast, UnsubscribePodcast, UpNextList} || ActionRoute(op)
  }

  // The table facts, a few operations at a time: each map literal is expensive to unfold.

  lemma LibraryRoutes(op: Operation)
    requires op in {PodcastList, NewReleases, InProgress}
    ensures Name(op) in ListingRoutes && ListingRoutes[Name(op)] == Path(op) && Name(op) !in LaterRoutes
  {
  }

  lemma ActivityRoutes(op: Operation)
    requires op in {StarredEpisodes, History, Stats}
    ensures Name(op) in ListingRoutes && ListingRoutes[Name(op)] == Path(op) && Name(op) !in LaterRoutes
  {
  }

  lemma DiscoverRoutes(op: Operation)
    requires op in {Search, Recommendations, CategoryList}
    ensures Name(op) in ListingRoutes && ListingRoutes[Name(op)] == Path(op) && Name(op) !in LaterRoutes
  {
  }

  lemma ListDocumentRoutes(op: Operation)
    requires op in {ContentList, FeaturedList, NetworkList}
    ensures Name(op) in ListingRoutes && ListingRoutes[Name(op)] == Path(op) && Name(op) !in LaterRoutes
  {
  }

  lemma ChartRoutes(op: Operation)
    requires op in {PopularList, TrendingList}
    ensures Name(op) in ListingRoutes && ListingRoutes[Name(op)] == Path(op) && Name(op) !in LaterRoutes
  {
  }

  lemma PodcastRoutes(op: Operation)
    requires op in {PodcastEpisodes, SubscribePodcast, UnsubscribePodcast}
    ensures Name(op) in LaterRoutes && LaterRoutes[Name(op)] == Path(op) && Name(op) !in ListingRoutes
  {
  }

  lemma EpisodeUpdateRoutes(op: Operation)
    requires op in {EpisodeArchive, EpisodeStar, PlayStatus}
    ensures Name(op) in LaterRoutes && LaterRoutes[Name(op)] == Path(op) && Name(op) !in ListingRoutes
  {
  }

  lemma QueueRoutes(op: Operation)
    requires op in {UpNextList, UpNextPlayNext, UpNextPlayLast}
    ensures Name(op) in LaterRoutes && LaterRoutes[Name(op)] == Path(op) && Name(op) !in ListingRoutes
  {
  }

  /** Every operation is routed to its path, and the listing routes are exactly those of the
      operations that were not added later. */
  lemma EndpointOfOperation(op: Operation)
    ensures GetEndpoint(Name(op)) == Some(Path(op))
    ensures Name(op) in ListingRoutes <==> !AddedLater(op)
    ensures Name(op) in ListingRoutes ==> ListingRoutes[Name(op)] == Path(op)
  {
    match op
    case PodcastList | NewReleases | InProgress => LibraryRoutes(op);
    case StarredEpisodes | History | Stats => ActivityRoutes(op);
    case Search | Recommendations | CategoryList => DiscoverRoutes(op);
    case ContentList | FeaturedList | NetworkList => ListDocumentRoutes(op);
    case PopularList | TrendingList => ChartRoutes(op);
    case PodcastEpisodes | SubscribePodcast | UnsubscribePodcast => PodcastRoutes(op);
    case EpisodeArchive | EpisodeStar | PlayStatus => EpisodeUpdateRoutes(op);
    case UpNextList | UpNextPlayNext | UpNextPlayLast => QueueRoutes(op);
  }

  /** Every listing route belongs to an operation. */
  lemma ListingRouteHasOperation(name: string)
    requires name in ListingRoutes
    ensures exists op :: Name(op) == name
  {
    var op := match name {
      case "list" => PodcastList
      case "new_releases" => NewReleases
      case "in_progress" => InProgress
      case "starred" => StarredEpisodes
      case "history" => History
      case "stats" => Stats
      case "search" => Search
      case "recommendations" => Recommendations
      case "categories" => CategoryList
      case "content" => ContentList
      case "featured" => FeaturedList
      case "networks" => NetworkList
      case "popular" => PopularList
      case _ => TrendingList
    };
    assert Name(op) == name;
  }

  /** Every later route belongs to an operation. */
  lemma LaterRouteHasOperation(name: string)
    requires name in LaterRoutes
    ensures exists op :: Name(op) == name
  {
    var op := match name {
      case "episodes" => PodcastEpisodes
      case "subscribe" => SubscribePodcast
      case "unsubscribe" => UnsubscribePodcast
      case "episode_archive" => EpisodeArchive
      case "episode_star" => EpisodeStar
      case "up_next" => UpNextList
      case "play_status" => PlayStatus
      case "play_next" => UpNextPlayNext
      case _ => UpNextPlayLast
    };
    assert Name(op) == name;
  }

  /** ... and no name outside the 23 operation names is routed at all. */
  lemma OnlyOperationsAreRouted(name: string)
    ensures GetEndpoint(name).Some? <==> exists op :: Name(op) == name
  {
    if name in ListingRoutes {
      ListingRouteHasOperation(name);
    } else if name in LaterRoutes {
      LaterRouteHasOperation(name);
    }
    if exists op :: Name(op) == name {
      var op :| Name(op) == name;
      EndpointOfOperation(op);
    }
  }

  predicate HasLeadingSlash(s: string) {
    |s| > 0 && s[0] == '/'
  }

  /** `_make_url(base, endpoint, suffix)`: the URL is `base + "/"`, then the endpoint with at
      most one leading slash removed, then `suffix`. */
  function MakeUrl(base: string, endpoint: string, suffix: string): (url: string)
    ensures |url| == |base| + 1 + |endpoint| - (if HasLeadingSlash(endpoint) then 1 else 0) + |suffix|
    ensures url[..|base| + 1] == base + "/" && url[|url| - |suffix|..] == suffix
    ensures var path := url[|base| + 1..|url| - |suffix|];
            if HasLeadingSlash(endpoint) then "/" + path == endpoint else path == endpoint
  {
    var path := if HasLeadingSlash(endpoint) then endpoint[1..] else endpoint;
    var url := base + "/" + path + suffix;
    assert url[|base| + 1..|url| - |suffix|] == path;
    url
  }

  /** Exactly one slash is removed, whatever follows it: `"//x"` becomes `"/x"`. */
  lemma MakeUrlStripsOneSlash(base: string, path: string, suffix: string)
    ensures MakeUrl(base, "/" + path, suffix) == base + "/" + path + suffix
  {
    assert ("/" + path)[1..] == path;
  }

  /** `_make_url(base, _get_endpoint(name), suffix)`, as every listing and action builds its URL;
      an unknown name gives None, on which `.startswith` raises. */
  function EndpointUrl(base: string, name: string, suffix: string): (r: Result<string>)
    ensures r.Raise? <==> forall op :: Name(op) != name
    ensures forall op :: Name(op) == name ==> r == Ok(MakeUrl(base, Path(op), suffix))
  {
    OnlyOperationsAreRouted(name);
    forall op | Name(op) == name
      ensures GetEndpoint(name) == Some(Path(op))
    {
      EndpointOfOperation(op);
    }
    match GetEndpoint(name)
    case None => Raise(AttributeError)
    case Some(e) => Ok(MakeUrl(base, e, suffix))
  }

  /** The static lists are fetched from `{lists base}/{name}.json`. */
  lemma StaticListUrls(name: string)
    requires name == "trending" || name == "popular" || name == "featured"
    ensures EndpointUrl(ListsBase, name, ".json") == Ok(ListsBase + "/" + name + ".json")
  {
    var op := if name == "trending" then TrendingList else if name == "popular" then PopularList else FeaturedList;
    assert Name(op) == name && Path(op) == name;
  }

  /** The account status URL loses the slash it is written with. */
  lemma AccountUrl()
    ensures MakeUrl(ApiBase, "/subscription/status", "") == "https://api.pocketcasts.com/subscription/status"
  {
    MakeUrlStripsOneSlash(ApiBase, "subscription/status", "");
  }

  // ---------------------------------------------------------------- adapters

  /** A podcast, a view over its JSON payload. */
  datatype Podcast = Podcast(data: Value) {
    /** `Podcast.id`: the payload's `uuid`. */
    function Id(): (r: Result<Value>)
      ensures r.Ok? <==> data.Object?
      ensures r.Raise? ==> r.error == AttributeError
      ensures r.Ok? ==> r.value == Field(data.entries, "uuid")
    {
      Get(data, "uuid")
    }
  }

  /** A category, a view over its JSON payload. */
  datatype Category = Category(data: Value)

  /** An account, a view over its JSON payload. */
  datatype Account = Account(data: Value)

  /** `Account.paid`: `data.get('paid') == 1`, where Python's `True == 1` also holds. */
  function Paid(a: Account): (r: Result<bool>)
    ensures r.Ok? <==> a.data.Object?
    ensures r == Ok(true) <==>
            a.data.Object? && Lookup(a.data.entries, "paid") in {Some(Int(1)), Some(Bool(true))}
  {
    match Get(a.data, "paid")
    case Raise(e) => Raise(e)
    case Ok(v) => Ok(v == Int(1) || v == Bool(true))
  }

  /** `Episode.playing`: `data.get('playing_status') > 0`; comparing None, a string or a
      container with 0 raises TypeError. */
  function Playing(data: Value): (r: Result<bool>)
    ensures !data.Object? ==> r == Raise(AttributeError)
    ensures data.Object? && !(Field(data.entries, "playing_status").Int? || Field(data.entries, "playing_status").Bool?)
            ==> r == Raise(TypeError)
    ensures data.Object? && (Field(data.entries, "playing_status").Int? || Field(data.entries, "playing_status").Bool?)
            ==> r.Ok?
    ensures r == Ok(true) <==>
            data.Object? && ((exists n :: n > 0 && Field(data.entries, "playing_status") == Int(n))
                             || Field(data.entries, "playing_status") == Bool(true))
  {
    match Get(data, "playing_status")
    case Raise(e) => Raise(e)
    case Ok(Int(n)) => Ok(n > 0)
    case Ok(Bool(b)) => Ok(b)
    case Ok(_) => Raise(TypeError)
  }

  /** `get_podcast_by_id` given the decoded response: a Podcast over `data['podcast']` when the
      response and its `podcast` entry are truthy, None otherwise. */
  function PodcastById(response: Value): (r: Result<Option<Podcast>>)
    ensures !Truthy(response) ==> r == Ok(None)
    ensures Truthy(response) && !response.Object? ==> r == Raise(AttributeError)
    ensures r.Ok? && r.value.Some? <==> response.Object? && Truthy(Field(response.entries, "podcast"))
    ensures r.Ok? && r.value.Some? ==> r.value.value.data == Field(response.entries, "podcast")
    ensures response.Object? ==> r.Ok?
  {
    if !Truthy(response) then Ok(None)
    else match Get(response, "podcast")
      case Raise(e) => Raise(e)
      case Ok(p) => if Truthy(p) then Ok(Some(Podcast(p))) else Ok(None)
  }

  /** Fetching an episode's podcast: look up `podcastUuid`, then ask the server for that id. */
  function Resolve(data: Value, server: Value -> Value): (r: Result<Option<Podcast>>)
    ensures r.Raise? <==> !data.Object? || (var response := server(Field(data.entries, "podcastUuid"));
                                            Truthy(response) && !response.Object?)
    ensures r.Raise? ==> r.error == AttributeError
    ensures r.Ok? && r.value.Some? ==> Truthy(r.value.value.data)
  {
    match Get(data, "podcastUuid")
    case Raise(e) => Raise(e)
    case Ok(id) => PodcastById(server(id))
  }

  /** What reading `Episode.podcast` gives with `slot` in `_podcast`: a filled slot is returned
      as it is (a Podcast object is always truthy), an empty one is resolved. */
  function Reading(slot: Option<Podcast>, data: Value, server: Value -> Value): (r: Result<Option<Podcast>>)
    ensures slot.Some? ==> r == Ok(slot)
    ensures slot.None? && !data.Object? ==> r == Raise(AttributeError)
    ensures slot.None? && data.Object? ==> r == PodcastById(server(Field(data.entries, "podcastUuid")))
  {
    if slot.Some? then Ok(slot) else Resolve(data, server)
  }

  // ---------------------------------------------------------------- requests

  datatype Encoding = Form | JsonBody

  /** One POST: where to, how the body is encoded, and the body. */
  datatype Request = Request(url: string, encoding: Encoding, body: Value)

  /** The actions an episode offers. */
  datatype Action = MarkPlayed | MarkUnplayed | AddStar | RemoveStar | Archive | Unarchive | PlayNext | PlayLast

  function ActionOperation(a: Action): Operation {
    match a
    case MarkPlayed => PlayStatus
    case MarkUnplayed => PlayStatus
    case AddStar => EpisodeStar
    case RemoveStar => EpisodeStar
    case Archive => EpisodeArchive
    case Unarchive => EpisodeArchive
    case PlayNext => UpNextPlayNext
    case PlayLast => UpNextPlayLast
  }

  /** The request an action sends, given the episode's id, the podcast reference, its title and
      url, and the (opaque) published date. */
  function ActionRequest(a: Action, uuid: Value, podcast: Value, title: Value, url: Value, published: Value): (r: Request)
    ensures r.url == ApiBase + "/" + Path(ActionOperation(a))
    ensures r.encoding == JsonBody <==> a == AddStar || a == RemoveStar
    ensures r.body.Object? && |r.body.entries| >= 2
  {
    var to := MakeUrl(ApiBase, Path(ActionOperation(a)), "");
    var episode := [Entry("uuid", uuid), Entry("podcast", podcast)];
    match a
    case MarkPlayed => Request(to, Form, Object(episode + [Entry("status", Int(3))]))
    case MarkUnplayed => Request(to, Form, Object(episode + [Entry("status", Int(1)), Entry("position", Int(0))]))
    case AddStar => Request(to, JsonBody, Object(episode + [Entry("star", Bool(true))]))
    case RemoveStar => Request(to, JsonBody, Object(episode + [Entry("star", Bool(false))]))
    case Archive => Request(to, Form, Object([Entry("episodes", Array([Object(episode)])), Entry("archive", Bool(true))]))
    case Unarchive => Request(to, Form, Object([Entry("episodes", Array([Object(episode)])), Entry("archive", Bool(false))]))
    case PlayNext | PlayLast =>
      Request(to, Form, Object([Entry("version", Int(2)),
                                Entry("episode", Object([Entry("uuid", uuid), Entry("title", title), Entry("url", url),
                                                         Entry("podcast", podcast), Entry("published", published)]))]))
  }

  /** Both play-status actions post to the play-status endpoint. */
  lemma PlayStatusUrl(uuid: Value, podcast: Value, title: Value, url: Value, published: Value)
    ensures ActionRequest(MarkPlayed, uuid, podcast, title, url, published).url == "https://api.pocketcasts.com/sync/update_episode"
    ensures ActionRequest(MarkUnplayed, uuid, podcast, title, url, published).url == "https://api.pocketcasts.com/sync/update_episode"
  {
    assert MakeUrl(ApiBase, Path(PlayStatus), "") == "https://api.pocketcasts.com/sync/update_episode";
  }

  /** `mark_played` sends status 3 and no position. */
  lemma MarkPlayedPayload(uuid: Value, podcast: Value, title: Value, url: Value, published: Value)
    ensures var r := ActionRequest(MarkPlayed, uuid, podcast, title, url, published);
            r.encoding == Form && r.body.Object? &&
            Lookup(r.body.entries, "status") == Some(Int(3)) && Lookup(r.body.entries, "position") == None
  {
    var played := ActionRequest(MarkPlayed, uuid, podcast, title, url, published).body.entries;
    assert played[1..][1..] == [Entry("status", Int(3))] && played[1..][1..][1..] == [];
    assert Lookup(played, "status") == Lookup(played[1..], "status") == Lookup(played[1..][1..], "status");
    assert Lookup(played, "position") == Lookup(played[1..], "position") == Lookup(played[1..][1..], "position")
        == Lookup(played[1..][1..][1..], "position");
  }

  /** `mark_unplayed` sends status 1 and position 0. */
  lemma MarkUnplayedPayload(uuid: Value, podcast: Value, title: Value, url: Value, published: Value)
    ensures var r := ActionRequest(MarkUnplayed, uuid, podcast, title, url, published);
            r.encoding == Form && r.body.Object? &&
            Lookup(r.body.entries, "status") == Some(Int(1)) && Lookup(r.body.entries, "position") == Some(Int(0))
  {
    var unplayed := ActionRequest(MarkUnplayed, uuid, podcast, title, url, published).body.entries;
    assert unplayed[1..][1..] == [Entry("status", Int(1)), Entry("position", Int(0))];
    assert unplayed[1..][1..][1..] == [Entry("position", Int(0))];
    assert Lookup(unplayed, "status") == Lookup(unplayed[1..], "status") == Lookup(unplayed[1..][1..], "status");
    assert Lookup(unplayed, "position") == Lookup(unplayed[1..], "position") == Lookup(unplayed[1..][1..], "position")
        == Lookup(unplayed[1..][1..][1..], "position");
  }

  /** `add_star` / `remove_star` send a JSON body whose `star` is the flag. */
  lemma StarPayloads(uuid: Value, podcast: Value, title: Value, url: Value, published: Value)
    ensures var r := ActionRequest(AddStar, uuid, podcast, title, url, published);
            r.encoding == JsonBody && r.body.Object? && Lookup(r.body.entries, "star") == Some(Bool(true))
    ensures var r := ActionRequest(RemoveStar, uuid, podcast, title, url, published);
            r.encoding == JsonBody && r.body.Object? && Lookup(r.body.entries, "star") == Some(Bool(false))
  {
    var add := ActionRequest(AddStar, uuid, podcast, title, url, published).body.entries;
    assert add[1..][1..] == [Entry("star", Bool(true))];
    assert Lookup(add, "star") == Lookup(add[1..], "star") == Lookup(add[1..][1..], "star");
    var remove := ActionRequest(RemoveStar, uuid, podcast, title, url, published).body.entries;
    assert remove[1..][1..] == [Entry("star", Bool(false))];
    assert Lookup(remove, "star") == Lookup(remove[1..], "star") == Lookup(remove[1..][1..], "star");
  }

  /** `archive` / `unarchive` send the flag as `archive`. */
  lemma ArchivePayloads(uuid: Value, podcast: Value, title: Value, url: Value, published: Value)
    ensures var r := ActionRequest(Archive, uuid, podcast, title, url, published);
            r.body.Object? && Lookup(r.body.entries, "archive") == Some(Bool(true))
    ensures var r := ActionRequest(Unarchive, uuid, podcast, title, url, published);
            r.body.Object? && Lookup(r.body.entries, "archive") == Some(Bool(false))
  {
    var archive := ActionRequest(Archive, uuid, podcast, title, url, published).body.entries;
    assert archive[1..] == [Entry("archive", Bool(true))];
    assert Lookup(archive, "archive") == Lookup(archive[1..], "archive");
    var unarchive := ActionRequest(Unarchive, uuid, podcast, title, url, published).body.entries;
    assert unarchive[1..] == [Entry("archive", Bool(false))];
    assert Lookup(unarchive, "archive") == Lookup(unarchive[1..], "archive");
  }

  /** Every action names the podcast it sends as `podcast`, next to the episode's `uuid`. */
  lemma ActionsCarryPodcast(a: Action, uuid: Value, podcast: Value, title: Value, url: Value, published: Value)
    ensures var body := ActionRequest(a, uuid, podcast, title, url, published).body;
            var episode := match a
                           case Archive | Unarchive => body.entries[0].value.items[0]
                           case PlayNext | PlayLast => body.entries[1].value
                           case _ => body;
            Lookup(episode.entries, "uuid") == Some(uuid) && Lookup(episode.entries, "podcast") == Some(podcast)
  {
    var body := ActionRequest(a, uuid, podcast, title, url, published).body;
    match a {
      case PlayNext | PlayLast =>
        var es := body.entries[1].value.entries;
        assert es[1..][1..][1..] == [Entry("podcast", podcast), Entry("published", published)];
        assert Lookup(es, "podcast") == Lookup(es[1..], "podcast") == Lookup(es[1..][1..], "podcast")
            == Lookup(es[1..][1..][1..], "podcast");
      case Archive | Unarchive =>
        var es := body.entries[0].value.items[0].entries;
        assert es == [Entry("uuid", uuid), Entry("podcast", podcast)];
        assert Lookup(es, "podcast") == Lookup(es[1..], "podcast");
      case _ =>
        var es := body.entries;
        assert es[1..][0] == Entry("podcast", podcast);
        assert Lookup(es, "podcast") == Lookup(es[1..], "podcast");
    }
  }

  /** `self.podcast_id if self.podcast_id else self.podcast.id`: the id from the payload when it
      is truthy, otherwise the id of the podcast read through the lazy slot. */
  function PodcastRef(podcastId: Value, reading: Result<Option<Podcast>>): (r: Result<Value>)
    ensures Truthy(podcastId) ==> r == Ok(podcastId)
    ensures !Truthy(podcastId) && reading == Ok(None) ==> r == Raise(AttributeError)
    ensures !Truthy(podcastId) && reading.Raise? ==> r == Raise(reading.error)
    ensures forall p: Podcast :: !Truthy(podcastId) && reading == Ok(Some(p)) ==> r == p.Id()
  {
    if Truthy(podcastId) then Ok(podcastId)
    else match reading
      case Raise(e) => Raise(e)
      case Ok(None) => Raise(AttributeError)
      case Ok(Some(p)) => p.Id()
  }

  // ---------------------------------------------------------------- episodes

  /** An episode: its payload and the one mutable slot, `_podcast`. `fetches` counts the
      podcast lookups this instance has sent. */
  class Episode {
    const data: Value
    var podcast: Option<Podcast>
    ghost var fetches: nat

    constructor Init(data: Value, podcast: Option<Podcast>)
      ensures this.data == data && this.podcast == podcast && fetches == 0
    {
      this.data := data;
      this.podcast := podcast;
      fetches := 0;
    }

    /** `Episode(data, podcast, api)`: stores the payload and the podcast, and when the podcast
        is None resolves it once; a raise during resolution aborts the construction. */
    static method Create(data: Value, podcast: Option<Podcast>, server: Value -> Value) returns (r: Result<Episode>)
      ensures r.Ok? <==> Reading(podcast, data, server).Ok?
      ensures r.Raise? ==> r.error == Reading(podcast, data, server).error
      ensures r.Ok? ==> fresh(r.value) && r.value.data == data
      ensures r.Ok? ==> r.value.podcast == Reading(podcast, data, server).value
      ensures r.Ok? ==> r.value.fetches == if podcast.None? then 1 else 0
    {
      var e := new Episode.Init(data, podcast);
      var got := e.GetPodcast(server);
      if got.Raise? {
        return Raise(got.error);
      }
      return Ok(e);
    }

    /** `Episode.podcast`: a filled slot is returned without a fetch; an empty one is fetched
        by `podcast_id` and the result stored, even None, so None is fetched again next time. */
    method GetPodcast(server: Value -> Value) returns (r: Result<Option<Podcast>>)
      modifies this
      ensures r == Reading(old(podcast), data, server)
      ensures podcast == if r.Ok? then r.value else old(podcast)
      ensures fetches == old(fetches) + if old(podcast).None? && data.Object? then 1 else 0
    {
      if podcast.None? {
        var id := Get(data, "podcastUuid");
        if id.Raise? {
          return Raise(id.error);
        }
        fetches := fetches + 1;
        r := PodcastById(server(id.value));
        if r.Ok? {
          podcast := r.value;
        }
      } else {
        r := Ok(podcast);
      }
    }

    /** One of the episode actions: builds the request, reading the podcast through the slot
        only when the payload has no truthy `podcastUuid`, and reports whether the POST
        response was truthy. */
    method Perform(a: Action, published: Value, server: Value -> Value, post: Request -> bool)
      returns (r: Result<bool>)
      modifies this
      ensures !data.Object? ==> r == Raise(AttributeError)
      ensures !data.Object? || Truthy(Field(data.entries, "podcastUuid")) ==>
                podcast == old(podcast) && fetches == old(fetches)
      ensures data.Object? && !Truthy(Field(data.entries, "podcastUuid")) ==>
                var read := Reading(old(podcast), data, server);
                podcast == (if read.Ok? then read.value else old(podcast)) &&
                fetches == old(fetches) + if old(podcast).None? then 1 else 0
      ensures data.Object? ==>
                var es := data.entries;
                var ref := PodcastRef(Field(es, "podcastUuid"), Reading(old(podcast), data, server));
                r == if ref.Raise? then Raise(ref.error)
                     else Ok(post(ActionRequest(a, Field(es, "uuid"), ref.value, Field(es, "title"),
                                                Field(es, "url"), published)))
    {
      var uuid := Get(data, "uuid");
      if uuid.Raise? {
        return Raise(uuid.error);
      }
      var es := data.entries;
      var podcastId := Field(es, "podcastUuid");
      var ref: Result<Value>;
      if Truthy(podcastId) {
        ref := Ok(podcastId);
      } else {
        var read := GetPodcast(server);
        ref := PodcastRef(podcastId, read);
      }
      if ref.Raise? {
        return Raise(ref.error);
      }
      var request := ActionRequest(a, uuid.value, ref.value, Field(es, "title"), Field(es, "url"), published);
      return Ok(post(request));
    }
  }

  /** Reading the podcast twice: once the first read found a podcast the second returns that same
      podcast without a fetch, whatever the server now says; a first read that found nothing is
      not remembered, so the second fetches again. */
  method ReadPodcastTwice(e: Episode, first: Value -> Value, second: Value -> Value)
    returns (a: Result<Option<Podcast>>, b: Result<Option<Podcast>>)
    modifies e
    ensures a.Ok? && a.value.Some? ==> b == a && e.fetches <= old(e.fetches) + 1
    ensures old(e.podcast).None? && e.data.Object? && a == Ok(None) ==> e.fetches == old(e.fetches) + 2
    ensures e.fetches <= old(e.fetches) + 2
  {
    a := e.GetPodcast(first);
    b := e.GetPodcast(second);
  }

  // ---------------------------------------------------------------- list builders

  /** `_make_podcasts`: one Podcast per element of `payload['podcasts']`, in order; `[]` when the
      payload or that entry is falsy or absent. */
  method MakePodcasts(payload: Value) returns (r: Result<seq<Podcast>>)
    ensures Listing(payload, "podcasts").Raise? ==> r == Raise(Listing(payload, "podcasts").error)
    ensures Listing(payload, "podcasts").Ok? ==>
              var items := Listing(payload, "podcasts").value;
              r.Ok? && |r.value| == |items| && forall i :: 0 <= i < |items| ==> r.value[i] == Podcast(items[i])
  {
    var listing := Listing(payload, "podcasts");
    if listing.Raise? {
      return Raise(listing.error);
    }
    var items := listing.value;
    var podcasts: seq<Podcast> := [];
    var i := 0;
    while i < |items|
      invariant 0 <= i <= |items|
      invariant |podcasts| == i
      invariant forall k :: 0 <= k < i ==> podcasts[k] == Podcast(items[k])
    {
      podcasts := podcasts + [Podcast(items[i])];
      i := i + 1;
    }
    return Ok(podcasts);
  }

  /** `_make_episodes`: one new Episode per element of `payload['episodes']`, in order, each given
      the same `podcast`; with None each one resolves its own podcast, and the first that raises
      aborts the list. */
  method MakeEpisodes(payload: Value, podcast: Option<Podcast>, server: Value -> Value) returns (r: Result<seq<Episode>>)
    ensures Listing(payload, "episodes").Raise? ==> r == Raise(Listing(payload, "episodes").error)
    ensures Listing(payload, "episodes").Ok? ==>
              var items := Listing(payload, "episodes").value;
              (r.Ok? <==> forall i :: 0 <= i < |items| ==> Reading(podcast, items[i], server).Ok?) &&
              (r.Raise? ==> exists i :: 0 <= i < |items| && Reading(podcast, items[i], server) == Raise(r.error)
                                        && forall j :: 0 <= j < i ==> Reading(podcast, items[j], server).Ok?) &&
              (r.Ok? ==> |r.value| == |items| &&
                         forall i :: 0 <= i < |items| ==>
                           fresh(r.value[i]) && r.value[i].data == items[i] &&
                           r.value[i].podcast == Reading(podcast, items[i], server).value &&
                           r.value[i].fetches == if podcast.None? then 1 else 0)
    ensures r.Ok? ==> forall i, j :: 0 <= i < j < |r.value| ==> r.value[i] != r.value[j]
  {
    var listing := Listing(payload, "episodes");
    if listing.Raise? {
      return Raise(listing.error);
    }
    var items := listing.value;
    var episodes: seq<Episode> := [];
    var i := 0;
    while i < |items|
      invariant 0 <= i <= |items|
      invariant |episodes| == i
      invariant forall k :: 0 <= k < i ==> Reading(podcast, items[k], server).Ok?
      invariant forall k :: 0 <= k < i ==>
                  fresh(episodes[k]) && episodes[k].data == items[k] &&
                  episodes[k].podcast == Reading(podcast, items[k], server).value &&
                  episodes[k].fetches == if podcast.None? then 1 else 0
      invariant forall k, l :: 0 <= k < l < i ==> episodes[k] != episodes[l]
    {
      var e := Episode.Create(items[i], podcast, server);
      if e.Raise? {
        return Raise(e.error);
      }
      episodes := episodes + [e.value];
      i := i + 1;
    }
    return Ok(episodes);
  }

  /** `_make_categories`: one Category per element of the top-level payload, in order. */
  method MakeCategories(payload: Value) returns (r: Result<seq<Category>>)
    ensures Items(payload).Raise? ==> r == Raise(Items(payload).error)
    ensures Items(payload).Ok? ==>
              var items := Items(payload).value;
              r.Ok? && |r.value| == |items| && forall i :: 0 <= i < |items| ==> r.value[i] == Category(items[i])
  {
    var listing := Items(payload);
    if listing.Raise? {
      return Raise(listing.error);
    }
    var items := listing.value;
    var categories: seq<Category> := [];
    var i := 0;
    while i < |items|
      invariant 0 <= i <= |items|
      invariant |categories| == i
      invariant forall k :: 0 <= k < i ==> categories[k] == Category(items[k])
    {
      categories := categories + [Category(items[i])];
      i := i + 1;
    }
    return Ok(categories);
  }

  // ---------------------------------------------------------------- podcasts and categories

  /** The request `Podcast.subscribe` / `Podcast.unsubscribe` sends. */
  function SubscriptionRequest(p: Podcast, subscribe: bool): (r: Result<Request>)
    ensures r.Ok? <==> p.data.Object?
    ensures r.Ok? ==> r.value.body == Object([Entry("uuid", Field(p.data.entries, "uuid"))])
    ensures r.Ok? ==> r.value.url == MakeUrl(ApiBase, Path(if subscribe then SubscribePodcast else UnsubscribePodcast), "")
  {
    match p.Id()
    case Raise(e) => Raise(e)
    case Ok(id) =>
      var op := if subscribe then SubscribePodcast else UnsubscribePodcast;
      Ok(Request(MakeUrl(ApiBase, Path(op), ""), Form, Object([Entry("uuid", id)])))
  }

  /** `Podcast.subscribe` / `Podcast.unsubscribe`: True iff the POST response is truthy. */
  function Subscribe(p: Podcast, subscribe: bool, post: Request -> bool): (r: Result<bool>)
    ensures r.Raise? <==> !p.data.Object?
    ensures r.Ok? ==> (r.value <==> post(SubscriptionRequest(p, subscribe).value))
  {
    match SubscriptionRequest(p, subscribe)
    case Raise(e) => Raise(e)
    case Ok(req) => Ok(post(req))
  }

  /** `Podcast.episodes`: the podcast's episodes, each holding this podcast, so none of them
      fetches anything. */
  method PodcastEpisodeList(p: Podcast, postJson: Request -> Value, server: Value -> Value)
    returns (r: Result<seq<Episode>>)
    ensures !p.data.Object? ==> r == Raise(AttributeError)
    ensures r.Ok? ==> forall i :: 0 <= i < |r.value| ==>
                        fresh(r.value[i]) && r.value[i].podcast == Some(p) && r.value[i].fetches == 0
    ensures p.data.Object? ==>
              var req := Request(MakeUrl(ApiBase, Path(PodcastEpisodes), ""), Form,
                                 Object([Entry("uuid", Field(p.data.entries, "uuid"))]));
              var listing := Listing(postJson(req), "episodes");
              (r.Raise? <==> listing.Raise?) &&
              (r.Ok? ==> |r.value| == |listing.value| &&
                         forall i :: 0 <= i < |r.value| ==> r.value[i].data == listing.value[i])
  {
    var id := p.Id();
    if id.Raise? {
      return Raise(id.error);
    }
    var req := Request(MakeUrl(ApiBase, Path(PodcastEpisodes), ""), Form, Object([Entry("uuid", id.value)]));
    r := MakeEpisodes(postJson(req), Some(p), server);
  }

  /** `Category.get_podcasts`: the category's `source` with every `[regionCode]` replaced by the
      region; a missing or non-string source raises AttributeError. */
  function CategoryUrl(c: Category, region: string): (r: Result<string>)
    ensures !c.data.Object? ==> r == Raise(AttributeError)
    ensures r.Ok? <==> c.data.Object? && Field(c.data.entries, "source").Str?
    ensures r.Raise? ==> r.error == AttributeError
    ensures r.Ok? ==> r.value == ReplaceAll(Field(c.data.entries, "source").text, RegionPlaceholder, region)
  {
    match Get(c.data, "source")
    case Raise(e) => Raise(e)
    case Ok(Str(s)) => Ok(ReplaceAll(s, RegionPlaceholder, region))
    case Ok(_) => Raise(AttributeError)
  }

  /** A source written as text around `[regionCode]` holes gives that text with the region in
      every hole. */
  lemma {:induction false} CategoryUrlFillsRegion(c: Category, parts: seq<string>, region: string)
    requires c.data.Object? && Field(c.data.entries, "source") == Str(Join(parts, RegionPlaceholder))
    requires forall i :: 0 <= i < |parts| ==> '[' !in parts[i]
    ensures CategoryUrl(c, region) == Ok(Join(parts, region))
  {
    ReplaceAllFillsTemplate(parts, RegionPlaceholder, region);
  }

  method GetCategoryPodcasts(c: Category, region: string, getJson: string -> Value) returns (r: Result<seq<Podcast>>)
    ensures CategoryUrl(c, region).Raise? ==> r == Raise(CategoryUrl(c, region).error)
    ensures CategoryUrl(c, region).Ok? ==>
              var listing := Listing(getJson(CategoryUrl(c, region).value), "podcasts");
              (r.Raise? <==> listing.Raise?) &&
              (r.Ok? ==> |r.value| == |listing.value| &&
                         forall i :: 0 <= i < |r.value| ==> r.value[i] == Podcast(listing.value[i]))
  {
    var url := CategoryUrl(c, region);
    if url.Raise? {
      return Raise(url.error);
    }
    r := MakePodcasts(getJson(url.value));
  }

  /** Whether a category's name matches: `category.name.lower() == category_name.lower()`. */
  function NameMatches(c: Category, name: string): (r: Result<bool>)
    ensures r.Ok? <==> c.data.Object? && Field(c.data.entries, "name").Str?
    ensures r.Raise? ==> r.error == AttributeError
    ensures r.Ok? ==> (r.value <==> Lower(Field(c.data.entries, "name").text) == Lower(name))
  {
    match Get(c.data, "name")
    case Raise(e) => Raise(e)
    case Ok(Str(s)) => Ok(Lower(s) == Lower(name))
    case Ok(_) => Raise(AttributeError)
  }

  /** The scan of `PocketCast.category`: the first category whose name matches, None when none
      does; a category whose name cannot be lowered raises, unless a match came before it. */
  function FirstMatch(cs: seq<Category>, name: string): (r: Result<Option<Category>>)
    ensures r.Raise? ==> r.error == AttributeError
    ensures r.Ok? && r.value.Some? ==> r.value.value in cs && NameMatches(r.value.value, name) == Ok(true)
  {
    if cs == [] then Ok(None)
    else match NameMatches(cs[0], name)
      case Raise(e) => Raise(e)
      case Ok(true) => Ok(Some(cs[0]))
      case Ok(false) => FirstMatch(cs[1..], name)
  }

  /** The scan's result is decided by the first category that does not fail to match. */
  lemma {:induction false} FirstMatchIsFirst(cs: seq<Category>, name: string)
    ensures FirstMatch(cs, name) == Ok(None) <==> forall j :: 0 <= j < |cs| ==> NameMatches(cs[j], name) == Ok(false)
    ensures FirstMatch(cs, name) != Ok(None) ==>
              exists i :: 0 <= i < |cs| && NameMatches(cs[i], name) != Ok(false) &&
                          (forall j :: 0 <= j < i ==> NameMatches(cs[j], name) == Ok(false)) &&
                          FirstMatch(cs, name) == match NameMatches(cs[i], name)
                                                  case Raise(e) => Raise(e)
                                                  case Ok(_) => Ok(Some(cs[i]))
  {
    if cs != [] {
      FirstMatchIsFirst(cs[1..], name);
      if NameMatches(cs[0], name) == Ok(false) && FirstMatch(cs, name) != Ok(None) {
        var i :| 0 <= i < |cs| - 1 && NameMatches(cs[1..][i], name) != Ok(false) &&
                 (forall j :: 0 <= j < i ==> NameMatches(cs[1..][j], name) == Ok(false)) &&
                 FirstMatch(cs[1..], name) == match NameMatches(cs[1..][i], name)
                                              case Raise(e) => Raise(e)
                                              case Ok(_) => Ok(Some(cs[1..][i]));
        assert cs[i + 1] == cs[1..][i];
        assert forall j :: 0 <= j < i + 1 ==> NameMatches(cs[j], name) == Ok(false) by {
          forall j | 0 <= j < i + 1 ensures NameMatches(cs[j], name) == Ok(false) {
            if j > 0 { assert cs[j] == cs[1..][j - 1]; }
          }
        }
      }
      if FirstMatch(cs, name) == Ok(None) {
        forall j | 0 <= j < |cs| ensures NameMatches(cs[j], name) == Ok(false) {
          if j > 0 { assert cs[j] == cs[1..][j - 1]; }
        }
      }
    }
  }

  /** Categories after the first match are never looked at. */
  lemma {:induction false} FirstMatchIgnoresRest(cs: seq<Category>, rest: seq<Category>, name: string)
    requires FirstMatch(cs, name).Ok? && FirstMatch(cs, name).value.Some?
    ensures FirstMatch(cs + rest, name) == FirstMatch(cs, name)
  {
    assert (cs + rest)[0] == cs[0];
    if NameMatches(cs[0], name) == Ok(false) {
      assert (cs + rest)[1..] == cs[1..] + rest;
      FirstMatchIgnoresRest(cs[1..], rest, name);
    }
  }

  /** The lookup ignores the case of the name asked for. */
  lemma {:induction false} FirstMatchIgnoresCase(cs: seq<Category>, name: string, other: string)
    requires Lower(name) == Lower(other)
    ensures FirstMatch(cs, name) == FirstMatch(cs, other)
  {
    if cs != [] {
      FirstMatchIgnoresCase(cs[1..], name, other);
    }
  }

  /** `PocketCast.category` over the categories it loaded: an early-return loop. */
  method CategoryByName(cs: seq<Category>, name: string) returns (r: Result<Option<Category>>)
    ensures r == FirstMatch(cs, name)
  {
    var i := 0;
    while i < |cs|
      invariant 0 <= i <= |cs|
      invariant FirstMatch(cs[i..], name) == FirstMatch(cs, name)
    {
      var m := NameMatches(cs[i], name);
      if m.Raise? {
        return Raise(m.error);
      }
      if m.value {
        return Ok(Some(cs[i]));
      }
      assert cs[i..][1..] == cs[i + 1..];
      i := i + 1;
    }
    return Ok(None);
  }

  /** `PocketCast.category(name)` given the decoded category catalog. */
  method FindCategory(catalog: Value, name: string) returns (r: Result<Option<Category>>)
    ensures Items(catalog).Raise? ==> r == Raise(Items(catalog).error)
    ensures Items(catalog).Ok? ==>
              var xs := Items(catalog).value;
              r == FirstMatch(seq(|xs|, i requires 0 <= i < |xs| => Category(xs[i])), name)
  {
    var categories := MakeCategories(catalog);
    if categories.Raise? {
      return Raise(categories.error);
    }
    ghost var xs := Items(catalog).value;
    assert categories.value == seq(|xs|, i requires 0 <= i < |xs| => Category(xs[i]));
    r := CategoryByName(categories.value, name);
  }

  // ---------------------------------------------------------------- session

  /** The request `_login` sends. */
  function LoginRequest(email: string, password: string): (r: Request)
    ensures r.url == "https://api.pocketcasts.com/user/login" && r.encoding == JsonBody
    ensures r.body.Object? && Lookup(r.body.entries, "scope") == Some(Str("webplayer"))
    ensures Lookup(r.body.entries, "email") == Some(Str(email))
    ensures Lookup(r.body.entries, "password") == Some(Str(password))
  {
    var body := [Entry("email", Str(email)), Entry("password", Str(password)), Entry("scope", Str("webplayer"))];
    assert body[1..] == [body[1], body[2]] && body[1..][1..] == [Entry("scope", Str("webplayer"))];
    assert Lookup(body, "scope") == Lookup(body[1..], "scope") == Lookup(body[1..][1..], "scope");
    assert Lookup(body, "password") == Lookup(body[1..], "password");
    Request(MakeUrl(ApiBase, "user/login", ""), JsonBody,
            Object([Entry("email", Str(email)), Entry("password", Str(password)), Entry("scope", Str("webplayer"))]))
  }

  /** The session: the bearer token, None until a login succeeds. */
  class PocketCast {
    var token: Value

    constructor Init()
      ensures token == Null
    {
      token := Null;
    }

    /** `PocketCast(email, password)`: logs in at construction; the token is stored only when the
        response is truthy, and a truthy response without `token` raises. */
    static method Connect(email: string, password: string, postJson: Request -> Value) returns (r: Result<PocketCast>)
      ensures var response := postJson(LoginRequest(email, password));
              (r.Ok? <==> !Truthy(response) || Subscript(response, "token").Ok?) &&
              (r.Ok? ==> fresh(r.value) &&
                         r.value.token == if Truthy(response) then Subscript(response, "token").value else Null)
    {
      var session := new PocketCast.Init();
      var response := postJson(LoginRequest(email, password));
      if Truthy(response) {
        var token := Subscript(response, "token");
        if token.Raise? {
          return Raise(token.error);
        }
        session.token := token.value;
      }
      return Ok(session);
    }
  }

  /** The URL `PocketCast.content(list_id)` fetches. */
  function ContentUrl(listId: string): (r: string)
    ensures !HasLeadingSlash(listId) ==> r == MakeUrl(ListsBase, listId, ".json")
    ensures HasLeadingSlash(listId) ==> r == MakeUrl(ListsBase, "/" + listId, ".json")
  {
    ListsBase + "/" + listId + ".json"
  }

  /** The trending, popular and featured lists are the same documents `content` fetches by
      their names. */
  lemma ContentCoversStaticLists(name: string)
    requires name == "trending" || name == "popular" || name == "featured"
    ensures EndpointUrl(ListsBase, name, ".json") == Ok(ContentUrl(name))
  {
    StaticListUrls(name);
  }

  /** `PocketCast.content(list_id)`: the podcasts of the list document named `list_id`. */
  method Content(listId: string, getJson: string -> Value) returns (r: Result<seq<Podcast>>)
    ensures var listing := Listing(getJson(ContentUrl(listId)), "podcasts");
            (r.Raise? <==> listing.Raise?) &&
            (r.Ok? ==> |r.value| == |listing.value| &&
                       forall i :: 0 <= i < |r.value| ==> r.value[i] == Podcast(listing.value[i]))
  {
    r := MakePodcasts(getJson(ContentUrl(listId)));
  }

  /** `PocketCast.networks`: always empty. */
  function Networks(): (r: seq<Podcast>)
    ensures |r| == 0
  {
    []
  }
}
